=== FILE: README.md ===
# Chat relay core in Dafny

This project models the core of a small instant-messaging relay. The relay
serves two RPCs:

- `Send` validates a message and files it in a per-conversation store.
- `Pull` pages through a conversation in timestamp order.

A conversation is named by a chat descriptor `a:b`. The handler derives a
canonical conversation key from it by lower-casing the descriptor and
putting the two participants in lexicographic order (`checkGroupID`), so
`Bob:Alice` and `alice:bob` both name the key `alice:bob`.

The store is one Redis hash per key, with one field per timestamp. Here it
is a class holding a map from key to (timestamp to message).

Modules, one per concern of the source:

- `Chat` (chat.dfy): Go's `int64`/`int32`, two's-complement wrap-around of
  `int64` addition (`Wrap64`), the error taxonomy, and the stored `Message`.
- `GoStrings` (go_strings.dfy): the parts of Go's `strings` package that the
  handler uses:
  - `ToLower`, restricted to ASCII letters;
  - `Split` on one separator character, with `Join` as its inverse;
  - `Compare`, as lexicographic order.
- `TimestampOrder` (timestamp_order.dfy): the order in which the store lists
  timestamps.
  - `SortedKeys` is the reference listing.
  - `SortTimestamps` is an in-place sort on an `array<Int64>` that stands for
    `sort.Slice`. It is proved ordered and a permutation, and therefore equal
    to `SortedKeys`.
- `Redis` (redis.dfy): the message store `MessageStore`.
  - `SaveMessageToRedis` is specified by the pure update `Put`.
  - `GetMessagesByGroupID` is specified by the ghost function `Window`: the
    sorted listing clamped to `[start, end]`.
- `Handler` (handler.dfy): `min`, `max`, `checkGroupID`,
  `ValidateSendRequest`, `createMessage`, `Send` and `Pull`. The store is
  passed explicitly. The clock reading is passed as `now`.

## Behaviour as written

The model follows the Go code, including where it does not do what its own
names and comments suggest: a "default limit" that applies only to 0, a
`hasMore` flag that is never set, and an empty conversation that is an error
rather than an empty page.

- **Limit defaulting.** Only a limit of exactly 0 becomes 10. A negative
  limit is kept. The window end `cursor + limit - 1` is then computed in
  wrapping `int64` arithmetic.
- **`hasMore` is never true.** The handler asks the store for exactly
  `limit` positions, `[cursor, cursor + limit - 1]`. A successful fetch
  therefore never holds more than `limit` messages (`WindowWithinLimit`), and
  the truncation branch is dead for every positive limit. Fifteen stored
  messages with cursor 0 and limit 10 give ten messages and `hasMore = false`
  (`PagesOfFifteen`, `Handler.Pull`).
- **Unknown and exhausted conversations are errors.** When nobody has
  written to a conversation, or the cursor is past its end, the clamped
  window is empty and the store returns the "invalid start and end indices"
  error. The handler passes that error on (`UnknownChatFails`,
  `WindowFails`). No empty page is returned.
- **Negative limits.** For a negative limit, a successful fetch reaches the
  `messages[:limit]` slice with a negative bound. That is a run-time panic in
  Go, modelled as `Err(SliceOutOfRange)`. With cursor `MinInt64` and limit
  -1, the window end wraps round to `MaxInt64 - 1`, and a non-empty
  conversation is fetched whole before the panic (`PullWrapsOnLowestCursor`).
- **Validation and key derivation disagree.**
  - `ValidateSendRequest` accepts three or more parts, but `checkGroupID`
    then rejects them (`ValidateAcceptsExtraParts`).
  - Empty participants are accepted (`CheckGroupIDAcceptsEmptyPart`).
  - The "empty chat id" branch of `ValidateSendRequest` cannot be taken,
    because `strings.Split` always returns at least one part.
- **Timestamp collisions overwrite.** Two messages with the same timestamp
  in one conversation leave only the later one (`SaveTwiceLastWins`).

## Model

| member | source | states |
|---|---|---|
| Chat.Wrap64 | rpc-server/handler.go:71 | Go `int64` addition: the result lies in the `int64` range and is congruent to the exact sum modulo 2^64 |
| Chat.WrapInRange | rpc-server/handler.go:96 | a sum that stays in the `int64` range is exact |
| Chat.WrapAbove | rpc-server/handler.go:71 | a sum just above `MaxInt64` wraps to a negative value |
| Chat.WrapBelow | rpc-server/handler.go:71 | a sum just below `MinInt64` wraps to a positive value |
| GoStrings.LowerChar | rpc-server/handler.go:146 | a lower-cased character is never upper case; only upper-case letters change |
| GoStrings.ToLower | rpc-server/handler.go:146 | `strings.ToLower` keeps the length and leaves no upper-case letter |
| GoStrings.ToLowerAppend | rpc-server/handler.go:146 | lower-casing distributes over concatenation |
| GoStrings.ToLowerOfLower | rpc-server/handler.go:146 | a string without upper-case letters is unchanged by lower-casing |
| GoStrings.ToLowerIdempotent | rpc-server/handler.go:146 | lower-casing twice is lower-casing once |
| GoStrings.ToLowerKeepsColons | rpc-server/handler.go:146-147 | lower-casing keeps the number of ':' separators |
| GoStrings.IndexOf | rpc-server/handler.go:147 | the index found holds the separator, and no earlier position does |
| GoStrings.Split | rpc-server/handler.go:147 | `strings.Split` yields at least one part, and no part contains the separator |
| GoStrings.SplitCount | rpc-server/handler.go:147-148 | `strings.Split` yields exactly one more part than there are separators |
| GoStrings.JoinOfSplit | rpc-server/handler.go:147 | joining the parts of a split with the separator gives back the string |
| GoStrings.SplitOfJoin | rpc-server/handler.go:147 | splitting a join of separator-free parts gives back the parts |
| GoStrings.SplitPair | rpc-server/handler.go:108 | `x:y` with colon-free `x`, `y` splits into exactly `[x, y]` |
| GoStrings.SplitOfLower | rpc-server/handler.go:147 | the parts of a lower-case string are lower case |
| GoStrings.Compare | rpc-server/handler.go:132 | `strings.Compare` is -1, 0 or 1, and 0 exactly when the strings are equal |
| GoStrings.CompareAntisymmetric | rpc-server/handler.go:139 | swapping the arguments negates the comparison |
| GoStrings.CompareTransitive | rpc-server/handler.go:131-143 | `Compare(a, b) <= 0` is transitive, so it orders strings totally |
| GoStrings.ComparePrefix | rpc-server/handler.go:152-153 | lexicographic order: a proper prefix sorts before the longer string |
| GoStrings.CompareFirstDifference | rpc-server/handler.go:152-153 | lexicographic order: after a common prefix, the first differing character decides; with `ComparePrefix` and `CompareAntisymmetric` this fixes `Compare` on every pair |
| Handler.Min | rpc-server/handler.go:131-136 | `min` returns one of its arguments, and it sorts no later than either |
| Handler.Max | rpc-server/handler.go:138-143 | `max` returns one of its arguments, and it sorts no earlier than either |
| Handler.MinMaxSorts | rpc-server/handler.go:131-143 | `min` then `max` is a sorted permutation of the two arguments and does not depend on their order |
| Handler.CheckGroupID | rpc-server/handler.go:145-157 | fails, with the group-id error, exactly when the descriptor does not hold exactly one ':'; a key is lower case with one ':' |
| Handler.CheckGroupIDSymmetric | rpc-server/handler.go:145-157 | `x:y` and `y:x` derive the same key |
| Handler.CheckGroupIDCaseInsensitive | rpc-server/handler.go:146 | a descriptor and its lower-cased form derive the same result |
| Handler.CheckGroupIDCanonical | rpc-server/handler.go:152-154 | a key splits into exactly the descriptor's two lower-cased parts, smaller first |
| Handler.CheckGroupIDIdempotent | rpc-server/handler.go:145-157 | deriving a key from a derived key returns it unchanged |
| Handler.SortedPairIsKey | rpc-server/handler.go:145-157 | two lower-case, colon-free parts in order, joined by ':', derive themselves as the key |
| Handler.CheckGroupIDAcceptsEmptyPart | rpc-server/handler.go:148-154 | an empty participant passes: `:y` derives `:` followed by `y` lower-cased |
| Handler.ValidateSendRequest | rpc-server/handler.go:107-129 | the checks run in order: no ':' gives the chat-id error, then empty text the message error; the sender error comes exactly when there is a ':', the text is non-empty and the sender is neither part 0 nor part 1; the empty-chat-id error never occurs |
| Handler.ValidateTwoParts | rpc-server/handler.go:107-129 | for `x:y`, validation passes exactly when the text is non-empty and the sender is `x` or `y` |
| Handler.ValidateAcceptsExtraParts | rpc-server/handler.go:107-129 | `x:y:z` with sender `x` passes validation, but key derivation rejects it |
| Handler.CreateMessage | rpc-server/handler.go:159-165 | the stored message carries the request's text and sender and the clock reading `now` |
| Handler.Send | rpc-server/handler.go:21-50 | a failed validation or key derivation returns its error and leaves the store unchanged; otherwise exactly one `Put` of `CreateMessage(req, now)` under the derived key, and code 0 echoing the caller's chat |
| Handler.EffectiveLimit | rpc-server/handler.go:65-68 | a limit of 0 becomes 10, and every other limit, negative ones included, is kept; so the limit used is never 0 |
| Handler.ZeroLimitPullsTen | rpc-server/handler.go:65-71 | a pull with limit 0 fetches the same window as a pull with limit 10 |
| Handler.PullEnd | rpc-server/handler.go:70-71 | the window end is congruent to `cursor + limit - 1` modulo 2^64 (Go's wrapping addition), and equal to it whenever that sum lies in the `int64` range |
| Handler.WindowWithinLimit | rpc-server/handler.go:65-84 | when `cursor + limit - 1` does not fall below the `int64` range, a successful fetch holds between 1 and `limit` messages, so the truncation never happens |
| Handler.PagesOfFifteen | rpc-server/handler.go:65-73 | on 15 stored messages, pulls at cursors 0 and 10 with limit 10 return 10 and 5 messages; cursor 20 fails |
| Handler.UnknownChatFails | rpc-server/handler.go:73-76 | pulling a conversation that was never written to is an error |
| Handler.PullWrapsOnLowestCursor | rpc-server/handler.go:65-82 | cursor `MinInt64` with limit -1 wraps the window end to the top of the range, so the whole conversation is fetched and exceeds the limit |
| Handler.Pull | rpc-server/handler.go:52-105 | errors in order: empty chat, bad descriptor, empty window, negative-limit slice; success exactly otherwise, with `hasMore` false, code 0, `nextCursor = cursor + limit` (wrapping), and the fetched messages in order under the caller's own chat string |
| Handler.PullConversation | rpc-server/handler.go:65-104 | after the key is known: limit 0 becomes 10, the window fails or is cut by a negative limit, and otherwise the response holds the whole window of at most `limit` messages |
| Handler.ToRpcMessages | rpc-server/handler.go:86-94 | each fetched message becomes one response message carrying `chat`, in the same order |
| TimestampOrder.Extreme | rpc-server/redis.go:75-84 | the first key in the requested direction belongs to the set and comes before every key |
| TimestampOrder.SortedKeys | rpc-server/redis.go:75-84 | the reference listing has one entry per key, each a key |
| TimestampOrder.SortedKeysMultiset | rpc-server/redis.go:75-84 | the listing holds each key exactly once |
| TimestampOrder.SortedKeysStrict | rpc-server/redis.go:75-84 | the listing is strictly ascending, or strictly descending when reversed |
| TimestampOrder.OrderedIsSortedKeys | rpc-server/redis.go:75-84 | any ordered arrangement of the keys is the reference listing |
| TimestampOrder.DescendingIsReversedAscending | rpc-server/redis.go:76-83 | the descending listing is the ascending listing reversed |
| TimestampOrder.SortTimestamps | rpc-server/redis.go:75-84 | sorting in place leaves the slice ordered in the requested direction and a permutation of its old contents |
| Redis.Conversation | rpc-server/redis.go:58 | `HGetAll` reads an unknown key as an empty hash; for a known key it returns every stored field and no other, each with its stored value |
| Redis.ConversationAfterPut | rpc-server/redis.go:40 | read after write: a save shows up in its own conversation under its timestamp, and no other conversation changes |
| Redis.Put | rpc-server/redis.go:40 | `HSet`: the message is filed under its timestamp in the key's hash, and every other field and every other hash is unchanged |
| Redis.CollectTimestamps | rpc-server/redis.go:63-73 | the fresh slice holds each field of the hash exactly once |
| Redis.SortedTimestamps | rpc-server/redis.go:63-84 | the fresh slice is the reference listing of the hash's timestamps |
| Redis.ReadRange | rpc-server/redis.go:99-110 | the messages read are those filed under `timestamps[lo..hi]`, in order |
| Redis.MessageStore.SaveMessageToRedis | rpc-server/redis.go:32-46 | the new state is `Put` of the old one, and a store filing each message under its own timestamp stays so |
| Redis.MessageStore.GetMessagesByGroupID | rpc-server/redis.go:48-115 | the result is the clamped window `[max(start, 0), min(end, n - 1)]` of the sorted listing, or the range error when it is empty; on a store that files each message under its own timestamp, the messages come in strictly increasing timestamp order (decreasing when reversed) |
| Redis.WindowFails | rpc-server/redis.go:86-97 | the fetch fails, with the range error, exactly when `min(end, n - 1) < max(start, 0)`; in particular when the conversation is empty, `start >= n`, `end < start` or `end < 0` |
| Redis.WindowLength | rpc-server/redis.go:86-110 | a successful fetch returns `min(end, n - 1) - max(start, 0) + 1` messages: at least one, at most `end - start + 1` and at most `n` |
| Redis.WindowAt | rpc-server/redis.go:99-110 | the i-th fetched message is the one filed under the sorted timestamp at position `max(start, 0) + i` |
| Redis.WindowCovers | rpc-server/redis.go:86-110 | a window `[start, end]` covering sorted position `p` succeeds and returns the message at `p` at offset `p - max(start, 0)` |
| Redis.WindowOrdered | rpc-server/redis.go:75-110 | fetched messages run in strictly increasing timestamp order, or strictly decreasing when reversed |
| Redis.WindowReversed | rpc-server/redis.go:76-83 | over the whole conversation, the reversed fetch is the ascending fetch read backwards |
| Redis.SavedIsListed | rpc-server/redis.go:40 | a saved message's timestamp appears in its conversation's listing |
| Redis.SaveThenFetch | rpc-server/redis.go:32-115 | after a save, a fetch whose window covers the message's position returns that message at that position |
| Redis.SaveTwiceLastWins | rpc-server/redis.go:40 | two saves under one timestamp leave only the second message |
| Redis.PutKeepsWellKeyed | rpc-server/redis.go:40 | a save keeps every message filed under its own timestamp |

## Left out

- `InitClient` and the Redis connection (address, password, ping) are not modelled. The store is an in-memory map.
- Store I/O failures are not modelled, so saves and reads never fail for I/O reasons:
  - errors from `HSet`/`HGetAll`;
  - `json.Marshal`/`json.Unmarshal` failures;
  - `strconv.ParseInt` failures on field names.
- Hash fields are modelled as `int64` timestamps rather than their decimal strings. Every field the relay writes is such a string, so parsing it back always succeeds.
- `context.Context` and the service start-up are not modelled.
- Logging (`fmt.Println`/`Printf`) is not modelled.
- Error texts are not modelled. Each distinct error is a constructor of `Chat.Error`, and the response `Msg` strings are left out.
- The clock is not modelled. `time.Now().Unix()` becomes the parameter `now` of `Send`/`CreateMessage`.
- Only the request and response fields the handlers read or set are modelled. The Kitex-generated types become plain records.
- Concurrency between requests is not modelled. Each handler call is atomic over the store.
- The order in which `HGetAll` yields fields is modelled by a non-deterministic choice, and `sort.Slice` by an insertion sort. Because the keys are distinct, every correct sort gives the same result.
- GoStrings.ToLower: lower-cases ASCII letters only. Go's `strings.ToLower` also maps non-ASCII upper-case letters, which is not modelled.
- GoStrings.Compare: orders strings by code point. That equals Go's byte order of UTF-8 strings, but invalid UTF-8 byte strings are not modelled.
- Redis.WindowReversed: stated only for the full window `[0, MaxInt64]` of a conversation with at most `MaxInt64` messages. Other windows follow from `WindowAt` and `DescendingIsReversedAscending`.

=== FILE: chat.dfy ===
/**
 * Types shared by the relay's handler and its message store: Go's 64- and
 * 32-bit integers, the error taxonomy that replaces the formatted error
 * strings, and the stored Message record.
 */
module Chat {

  /** Go's int64; the cursor, the timestamps and the store's indices live here. */
  type Int64 = x: int | -0x8000_0000_0000_0000 <= x <= 0x7fff_ffff_ffff_ffff

  /** Go's int32; the limit field of a pull request. */
  type Int32 = x: int | -0x8000_0000 <= x <= 0x7fff_ffff

  const MinInt64: int := -0x8000_0000_0000_0000
  const MaxInt64: int := 0x7fff_ffff_ffff_ffff
  const TwoTo64: int := 0x1_0000_0000_0000_0000

  /** Two's-complement wrap-around of Go's int64 addition. */
  function Wrap64(x: int): (r: Int64)
    ensures (r - x) % TwoTo64 == 0
  {
    (x - MinInt64) % TwoTo64 + MinInt64
  }

  /** Addition that does not overflow is exact. */
  lemma WrapInRange(x: int)
    requires MinInt64 <= x <= MaxInt64
    ensures Wrap64(x) == x
  {
  }

  /** A sum just past the top of the range wraps to a negative value. */
  lemma WrapAbove(x: int)
    requires MaxInt64 < x <= MaxInt64 + 0x8000_0000
    ensures Wrap64(x) == x - TwoTo64 && Wrap64(x) < 0
  {
  }

  /** A sum just below the bottom of the range wraps to a positive value. */
  lemma WrapBelow(x: int)
    requires MinInt64 - 0x8000_0000 <= x < MinInt64
    ensures Wrap64(x) == x + TwoTo64 && Wrap64(x) > 0
  {
  }

  /** The error conditions of the relay, one per distinct failure in the source. */
  datatype Error =
    | EmptyChatId       // ValidateSendRequest: the descriptor split into no parts
    | InvalidChatId     // ValidateSendRequest: fewer than two colon-separated parts
    | EmptyMessage      // ValidateSendRequest: empty text
    | SenderNotInChat   // ValidateSendRequest: sender is neither of the first two parts
    | InvalidGroupId    // checkGroupID: not exactly two colon-separated parts
    | MissingChatId     // Pull: empty chat descriptor
    | InvalidRange      // GetMessagesByGroupID: the clamped window is empty
    | SliceOutOfRange   // Pull: Go's run-time panic when slicing with a negative bound

  datatype Result<T> = Ok(value: T) | Err(error: Error)

  datatype Outcome = Pass | Fail(error: Error)

  /** A stored chat message; `text` is the Go struct's `Message` field. */
  datatype Message = Message(text: string, sender: string, timestamp: Int64)
}

=== FILE: go_strings.dfy ===
/**
 * The three pieces of Go's `strings` package the relay relies on:
 * `ToLower` (restricted to ASCII letters), `Split` with a one-character
 * separator, and `Compare` (lexicographic order of code points, which is
 * the byte order of their UTF-8 encodings).
 */
module GoStrings {

  predicate IsUpper(c: char) {
    'A' <= c <= 'Z'
  }

  /** No character of `s` is an upper-case ASCII letter. */
  predicate IsLowerString(s: string) {
    forall i :: 0 <= i < |s| ==> !IsUpper(s[i])
  }

  function LowerChar(c: char): (d: char)
    ensures !IsUpper(d)
    ensures IsUpper(c) || d == c
  {
    if IsUpper(c) then (c as int + 32) as char else c
  }

  /** `strings.ToLower` on ASCII letters; every other character is kept. */
  function ToLower(s: string): (r: string)
    ensures |r| == |s|
    ensures IsLowerString(r)
  {
    if s == [] then [] else [LowerChar(s[0])] + ToLower(s[1..])
  }

  lemma {:induction false} ToLowerAppend(s: string, t: string)
    ensures ToLower(s + t) == ToLower(s) + ToLower(t)
  {
    if s != [] {
      assert (s + t)[0] == s[0] && (s + t)[1..] == s[1..] + t;
      ToLowerAppend(s[1..], t);
      calc {
        ToLower(s + t);
        [LowerChar(s[0])] + ToLower(s[1..] + t);
        [LowerChar(s[0])] + (ToLower(s[1..]) + ToLower(t));
        ([LowerChar(s[0])] + ToLower(s[1..])) + ToLower(t);
      }
    } else {
      assert s + t == t;
    }
  }

  /** A string without upper-case letters is its own lower-cased form. */
  lemma {:induction false} ToLowerOfLower(s: string)
    requires IsLowerString(s)
    ensures ToLower(s) == s
  {
    if s != [] {
      ToLowerOfLower(s[1..]);
    }
  }

  /** Lower-casing is idempotent. */
  lemma ToLowerIdempotent(s: string)
    ensures ToLower(ToLower(s)) == ToLower(s)
  {
    ToLowerOfLower(ToLower(s));
  }

  /** Lower-casing neither adds nor removes a colon. */
  lemma {:induction false} ToLowerKeepsColons(s: string)
    ensures multiset(ToLower(s))[':'] == multiset(s)[':']
  {
    if s != [] {
      ToLowerKeepsColons(s[1..]);
      assert s == [s[0]] + s[1..];
    }
  }

  /** Index of the first occurrence of `c` in `s`. */
  function IndexOf(s: string, c: char): (i: nat)
    requires c in s
    ensures i < |s| && s[i] == c && c !in s[..i]
  {
    if s[0] == c then 0
    else
      var j := IndexOf(s[1..], c);
      assert s[..j + 1] == [s[0]] + s[1..][..j];
      1 + j
  }

  /**
   * `strings.Split(s, string(sep))`: the maximal separator-free pieces of
   * `s`, one more than there are separators; the empty string gives [""].
   */
  function Split(s: string, sep: char): (parts: seq<string>)
    ensures |parts| >= 1
    ensures forall k :: 0 <= k < |parts| ==> sep !in parts[k]
    decreases |s|
  {
    if sep !in s then [s]
    else
      var i := IndexOf(s, sep);
      [s[..i]] + Split(s[i + 1..], sep)
  }

  /** `Split` yields exactly one more part than `s` holds separators. */
  lemma {:induction false} SplitCount(s: string, sep: char)
    ensures |Split(s, sep)| == multiset(s)[sep] + 1
    decreases |s|
  {
    if sep in s {
      var i := IndexOf(s, sep);
      var rest := s[i + 1..];
      assert s == s[..i] + [sep] + rest;
      assert multiset(s) == multiset(s[..i]) + multiset{sep} + multiset(rest);
      assert multiset(s[..i])[sep] == 0;
      SplitCount(rest, sep);
    } else {
      assert multiset(s)[sep] == 0;
    }
  }

  /** Concatenation of `parts` with `sep` between neighbours (Go's `strings.Join`). */
  function Join(parts: seq<string>, sep: char): string
    requires |parts| >= 1
  {
    if |parts| == 1 then parts[0] else parts[0] + [sep] + Join(parts[1..], sep)
  }

  /** Splitting then joining gives back the original string. */
  lemma {:induction false} JoinOfSplit(s: string, sep: char)
    ensures Join(Split(s, sep), sep) == s
    decreases |s|
  {
    if sep in s {
      var i := IndexOf(s, sep);
      var parts := Split(s, sep);
      JoinOfSplit(s[i + 1..], sep);
      assert parts[0] == s[..i] && parts[1..] == Split(s[i + 1..], sep);
      assert Join(parts, sep) == s[..i] + [sep] + Join(parts[1..], sep);
      assert s == s[..i] + [sep] + s[i + 1..];
    }
  }

  /** In `p + [sep] + rest` with `sep` not in `p`, the first separator is the one after `p`. */
  lemma {:induction false} IndexOfPrefix(p: string, rest: string, sep: char)
    requires sep !in p
    ensures IndexOf(p + [sep] + rest, sep) == |p|
  {
    if p != [] {
      var s := p + [sep] + rest;
      assert s[1..] == p[1..] + [sep] + rest;
      IndexOfPrefix(p[1..], rest, sep);
    }
  }

  /** Joining separator-free parts then splitting gives back the parts. */
  lemma {:induction false} SplitOfJoin(parts: seq<string>, sep: char)
    requires |parts| >= 1
    requires forall k :: 0 <= k < |parts| ==> sep !in parts[k]
    ensures Split(Join(parts, sep), sep) == parts
  {
    if |parts| > 1 {
      var p, rest := parts[0], Join(parts[1..], sep);
      var s := p + [sep] + rest;
      assert Join(parts, sep) == s;
      IndexOfPrefix(p, rest, sep);
      var i := IndexOf(s, sep);
      assert Split(s, sep) == [p] + Split(rest, sep) by {
        assert s[..i] == p && s[i + 1..] == rest;
      }
      SplitOfJoin(parts[1..], sep);
      assert parts == [p] + parts[1..];
    }
  }

  /** The two pieces around a single separator. */
  lemma SplitPair(x: string, y: string, sep: char)
    requires sep !in x && sep !in y
    ensures Split(x + [sep] + y, sep) == [x, y]
  {
    assert Join([x, y], sep) == x + [sep] + y;
    SplitOfJoin([x, y], sep);
  }

  /** The pieces of a string without upper-case letters have none either. */
  lemma {:induction false} SplitOfLower(s: string, sep: char)
    requires IsLowerString(s)
    ensures forall k :: 0 <= k < |Split(s, sep)| ==> IsLowerString(Split(s, sep)[k])
    decreases |s|
  {
    if sep in s {
      var i := IndexOf(s, sep);
      SplitOfLower(s[i + 1..], sep);
    }
  }

  /**
   * `strings.Compare`: -1, 0 or +1 as `a` sorts before, equal to or after
   * `b`; a proper prefix sorts first.
   */
  function Compare(a: string, b: string): (r: int)
    ensures -1 <= r <= 1
    ensures r == 0 <==> a == b
  {
    if a == [] && b == [] then 0
    else if a == [] then -1
    else if b == [] then 1
    else if a[0] < b[0] then -1
    else if a[0] > b[0] then 1
    else
      assert a == [a[0]] + a[1..] && b == [b[0]] + b[1..];
      Compare(a[1..], b[1..])
  }

  /** Swapping the arguments negates the comparison. */
  lemma {:induction false} CompareAntisymmetric(a: string, b: string)
    ensures Compare(a, b) == -Compare(b, a)
  {
    if a != [] && b != [] && a[0] == b[0] {
      CompareAntisymmetric(a[1..], b[1..]);
    }
  }

  /** A proper prefix sorts first. */
  lemma {:induction false} ComparePrefix(a: string, b: string)
    requires |a| < |b| && a == b[..|a|]
    ensures Compare(a, b) == -1
  {
    if a != [] {
      assert a[1..] == b[1..][..|a| - 1];
      ComparePrefix(a[1..], b[1..]);
    }
  }

  /** Past a common prefix, the first differing character decides the order. */
  lemma {:induction false} CompareFirstDifference(a: string, b: string, k: nat)
    requires k < |a| && k < |b| && a[..k] == b[..k] && a[k] != b[k]
    ensures Compare(a, b) == if a[k] < b[k] then -1 else 1
  {
    if k > 0 {
      assert a[0] == a[..k][0] == b[..k][0] == b[0];
      assert a[1..][..k - 1] == a[..k][1..] == b[..k][1..] == b[1..][..k - 1];
      CompareFirstDifference(a[1..], b[1..], k - 1);
    }
  }

  /** `Compare(_, _) <= 0` is transitive, so it is a total order on strings. */
  lemma {:induction false} CompareTransitive(a: string, b: string, c: string)
    requires Compare(a, b) <= 0 && Compare(b, c) <= 0
    ensures Compare(a, c) <= 0
  {
    if a != [] && b != [] && c != [] && a[0] == b[0] == c[0] {
      CompareTransitive(a[1..], b[1..], c[1..]);
    }
  }
}

=== FILE: handler.dfy ===
/**
 * The RPC handlers of rpc-server/handler.go: conversation-key derivation
 * (`checkGroupID` with `min`/`max`), send validation, and the `Send` and
 * `Pull` handlers over an explicitly passed message store.
 */
module Handler {
  import opened Chat
  import opened GoStrings
  import opened TimestampOrder
  import opened Redis

  /** The fields of a send request's message that the handler reads. */
  datatype SendRequest = SendRequest(chat: string, text: string, sender: string)

  /** A send response: code 0 and a confirmation naming the caller's chat. */
  datatype SendResponse = SendResponse(code: int, chat: string)

  datatype PullRequest = PullRequest(chat: string, cursor: Int64, limit: Int32, reverse: bool)

  /** A message as the pull response carries it. */
  datatype RpcMessage = RpcMessage(chat: string, text: string, sender: string, sendTime: Int64)

  datatype PullResponse = PullResponse(messages: seq<RpcMessage>, code: int, hasMore: bool, nextCursor: Int64)

  // ---------------------------------------------------------------------------
  // Conversation key
  // ---------------------------------------------------------------------------

  /** `min`: the argument that sorts first (the first one on a tie). */
  function Min(a: string, b: string): (r: string)
    ensures r == a || r == b
    ensures Compare(r, a) <= 0 && Compare(r, b) <= 0
  {
    CompareAntisymmetric(a, b);
    if Compare(a, b) <= 0 then a else b
  }

  /** `max`: the argument that sorts last (the first one on a tie). */
  function Max(a: string, b: string): (r: string)
    ensures r == a || r == b
    ensures Compare(r, a) >= 0 && Compare(r, b) >= 0
  {
    CompareAntisymmetric(a, b);
    if Compare(a, b) >= 0 then a else b
  }

  /**
   * `min` and `max` together are the two arguments in order: the pair does
   * not depend on the order of the arguments.
   */
  lemma MinMaxSorts(a: string, b: string)
    ensures Compare(Min(a, b), Max(a, b)) <= 0
    ensures multiset{Min(a, b), Max(a, b)} == multiset{a, b}
    ensures Min(a, b) == Min(b, a) && Max(a, b) == Max(b, a)
  {
    CompareAntisymmetric(a, b);
  }

  /**
   * `checkGroupID`: lower-cases the descriptor, splits it on ':' and, when
   * there are exactly two parts, joins them smallest first.
   */
  function CheckGroupID(groupID: string): (r: Result<string>)
    ensures r.Err? <==> multiset(groupID)[':'] != 1
    ensures r.Err? ==> r.error == InvalidGroupId
    ensures r.Ok? ==> IsLowerString(r.value) && multiset(r.value)[':'] == 1
  {
    var lowercase := ToLower(groupID);
    var senders := Split(lowercase, ':');
    ToLowerKeepsColons(groupID);
    SplitCount(lowercase, ':');
    if |senders| != 2 then Err(InvalidGroupId)
    else
      var sender1, sender2 := senders[0], senders[1];
      SplitOfLower(lowercase, ':');
      KeyShape(Min(sender1, sender2), Max(sender1, sender2));
      Ok(Min(sender1, sender2) + ":" + Max(sender1, sender2))
  }

  /** Two lower-case, colon-free parts joined by ':' make a lower-case string with one colon. */
  lemma KeyShape(p: string, q: string)
    requires ':' !in p && ':' !in q
    requires IsLowerString(p) && IsLowerString(q)
    ensures IsLowerString(p + ":" + q) && multiset(p + ":" + q)[':'] == 1
  {
    assert multiset(p + ":" + q) == multiset(p) + multiset{':'} + multiset(q);
  }

  lemma ToLowerPair(x: string, y: string)
    requires ':' !in x && ':' !in y
    ensures ToLower(x + ":" + y) == ToLower(x) + ":" + ToLower(y)
    ensures ':' !in ToLower(x) && ':' !in ToLower(y)
  {
    assert ToLower(x + ":" + y) == ToLower(x + ":") + ToLower(y) by {
      ToLowerAppend(x + ":", y);
    }
    assert ToLower(x + ":") == ToLower(x) + ":" by {
      ToLowerAppend(x, ":");
      assert ToLower(":") == ":";
    }
    assert ':' !in ToLower(x) by {
      ToLowerKeepsColons(x);
      assert multiset(x)[':'] == 0;
    }
    assert ':' !in ToLower(y) by {
      ToLowerKeepsColons(y);
      assert multiset(y)[':'] == 0;
    }
  }

  /** Either participant may come first: `x:y` and `y:x` name the same conversation. */
  lemma CheckGroupIDSymmetric(x: string, y: string)
    requires ':' !in x && ':' !in y
    ensures CheckGroupID(x + ":" + y).Ok?
    ensures CheckGroupID(x + ":" + y) == CheckGroupID(y + ":" + x)
  {
    ToLowerPair(x, y);
    ToLowerPair(y, x);
    SplitPair(ToLower(x), ToLower(y), ':');
    SplitPair(ToLower(y), ToLower(x), ':');
    MinMaxSorts(ToLower(x), ToLower(y));
  }

  /** Case does not matter: a descriptor and its lower-cased form give the same result. */
  lemma CheckGroupIDCaseInsensitive(groupID: string)
    ensures CheckGroupID(ToLower(groupID)) == CheckGroupID(groupID)
  {
    ToLowerIdempotent(groupID);
  }

  /**
   * A derived key is canonical: it splits into exactly the two lower-cased
   * parts of the descriptor, smallest first.
   */
  lemma CheckGroupIDCanonical(groupID: string)
    requires CheckGroupID(groupID).Ok?
    ensures var parts := Split(CheckGroupID(groupID).value, ':');
      && |parts| == 2
      && Compare(parts[0], parts[1]) <= 0
      && multiset(parts) == multiset(Split(ToLower(groupID), ':'))
  {
    var senders := Split(ToLower(groupID), ':');
    assert |senders| == 2 by {
      ToLowerKeepsColons(groupID);
      SplitCount(ToLower(groupID), ':');
    }
    var p, q := Min(senders[0], senders[1]), Max(senders[0], senders[1]);
    assert CheckGroupID(groupID).value == p + ":" + q;
    assert Split(p + ":" + q, ':') == [p, q] by {
      SplitPair(p, q, ':');
    }
    MinMaxSorts(senders[0], senders[1]);
    assert senders == [senders[0], senders[1]];
  }

  /** Deriving a key from a derived key returns it unchanged. */
  lemma CheckGroupIDIdempotent(groupID: string)
    requires CheckGroupID(groupID).Ok?
    ensures CheckGroupID(CheckGroupID(groupID).value) == CheckGroupID(groupID)
  {
    var senders := Split(ToLower(groupID), ':');
    ToLowerKeepsColons(groupID);
    SplitCount(ToLower(groupID), ':');
    var p, q := Min(senders[0], senders[1]), Max(senders[0], senders[1]);
    assert CheckGroupID(groupID).value == p + ":" + q;
    SplitOfLower(ToLower(groupID), ':');
    MinMaxSorts(senders[0], senders[1]);
    SortedPairIsKey(p, q);
  }

  /** Two lower-case, colon-free parts in order, joined by ':', form a key that derives itself. */
  lemma SortedPairIsKey(p: string, q: string)
    requires ':' !in p && ':' !in q
    requires IsLowerString(p) && IsLowerString(q)
    requires Compare(p, q) <= 0
    ensures CheckGroupID(p + ":" + q) == Ok(p + ":" + q)
  {
    var key := p + ":" + q;
    KeyShape(p, q);
    ToLowerOfLower(key);
    SplitPair(p, q, ':');
    CompareAntisymmetric(p, q);
  }

  /** An empty participant is accepted: `:y` is the key `:` followed by `y` lower-cased. */
  lemma CheckGroupIDAcceptsEmptyPart(y: string)
    requires ':' !in y
    ensures CheckGroupID(":" + y) == Ok(":" + ToLower(y))
  {
    assert ":" + y == [] + ":" + y;
    ToLowerPair([], y);
    assert ToLower(":" + y) == [] + ":" + ToLower(y);
    CheckGroupIDCaseInsensitive(":" + y);
    SortedPairIsKey([], ToLower(y));
  }

  // ---------------------------------------------------------------------------
  // Send
  // ---------------------------------------------------------------------------

  /**
   * `ValidateSendRequest`: the descriptor must split into at least two parts,
   * the text must be non-empty, and the sender must be part 0 or part 1,
   * compared exactly; the first failing check decides the error. `Split`
   * always yields a part, so the `EmptyChatId` branch cannot be taken.
   */
  function ValidateSendRequest(req: SendRequest): (r: Outcome)
    ensures r != Fail(EmptyChatId)
    ensures r == Fail(InvalidChatId) <==> ':' !in req.chat
    ensures r == Fail(EmptyMessage) <==> ':' in req.chat && req.text == []
    ensures r == Fail(SenderNotInChat) <==>
      && ':' in req.chat
      && req.text != []
      && req.sender != Split(req.chat, ':')[0]
      && req.sender != Split(req.chat, ':')[1]
    ensures r == Pass <==>
      && ':' in req.chat
      && req.text != []
      && (req.sender == Split(req.chat, ':')[0] || req.sender == Split(req.chat, ':')[1])
  {
    var chatID := Split(req.chat, ':');
    if |chatID| == 0 then Fail(EmptyChatId)
    else if |chatID| < 2 then Fail(InvalidChatId)
    else if |req.text| == 0 then Fail(EmptyMessage)
    else if req.sender != chatID[0] && req.sender != chatID[1] then Fail(SenderNotInChat)
    else Pass
  }

  /**
   * For a two-part descriptor `x:y`, validation passes exactly when the text
   * is non-empty and the sender is `x` or `y`.
   */
  lemma ValidateTwoParts(x: string, y: string, text: string, sender: string)
    requires ':' !in x && ':' !in y
    ensures ValidateSendRequest(SendRequest(x + ":" + y, text, sender)) == Pass <==>
      text != [] && (sender == x || sender == y)
  {
    SplitPair(x, y, ':');
  }

  /** `x:y:z` with colon-free `x` and `y` splits into `x`, `y` and the parts of `z`. */
  lemma SplitExtraParts(x: string, y: string, z: string)
    requires ':' !in x && ':' !in y
    ensures Split(x + ":" + y + ":" + z, ':') == [x, y] + Split(z, ':')
  {
    var parts := [x, y] + Split(z, ':');
    JoinOfSplit(z, ':');
    assert parts[2..] == Split(z, ':');
    assert Join(parts, ':') == x + ":" + y + ":" + z;
    SplitOfJoin(parts, ':');
  }

  /**
   * Validation lets through a descriptor with extra parts, which the key
   * derivation then rejects: `x:y:z` passes with sender `x`, yet has no key.
   */
  lemma ValidateAcceptsExtraParts(x: string, y: string, z: string, text: string)
    requires ':' !in x && ':' !in y && text != []
    ensures ValidateSendRequest(SendRequest(x + ":" + y + ":" + z, text, x)) == Pass
    ensures CheckGroupID(x + ":" + y + ":" + z) == Err(InvalidGroupId)
  {
    SplitExtraParts(x, y, z);
    SplitCount(x + ":" + y + ":" + z, ':');
  }

  /** `createMessage`, with the clock reading passed in as `now`. */
  function CreateMessage(req: SendRequest, now: Int64): (m: Message)
    ensures m.text == req.text && m.sender == req.sender
    ensures m.timestamp == now
  {
    Message(req.text, req.sender, now)
  }

  /**
   * `Send`: validates, builds the message, derives the key and makes exactly
   * one store write. A failed validation or key derivation writes nothing.
   */
  method Send(store: MessageStore, req: SendRequest, now: Int64) returns (r: Result<SendResponse>)
    modifies store
    ensures ValidateSendRequest(req).Fail? ==>
      r == Err(ValidateSendRequest(req).error) && store.chats == old(store.chats)
    ensures ValidateSendRequest(req).Pass? && CheckGroupID(req.chat).Err? ==>
      r == Err(InvalidGroupId) && store.chats == old(store.chats)
    ensures ValidateSendRequest(req).Pass? && CheckGroupID(req.chat).Ok? ==>
      && r == Ok(SendResponse(0, req.chat))
      && store.chats == Put(old(store.chats), CheckGroupID(req.chat).value, CreateMessage(req, now))
    ensures old(store.Valid()) ==> store.Valid()
  {
    var err := ValidateSendRequest(req);
    if err.Fail? {
      return Err(err.error);
    }
    var message := CreateMessage(req, now);
    var groupID := CheckGroupID(req.chat);
    if groupID.Err? {
      return Err(groupID.error);
    }
    store.SaveMessageToRedis(groupID.value, message);
    return Ok(SendResponse(0, req.chat));
  }

  // ---------------------------------------------------------------------------
  // Pull
  // ---------------------------------------------------------------------------

  /** The page size: a limit of 0 means 10; any other value, negative ones included, is kept. */
  function EffectiveLimit(limit: Int32): (r: Int32)
    ensures limit == 0 ==> r == 10
    ensures r != 0
    ensures limit != 0 ==> r == limit
  {
    if limit == 0 then 10 else limit
  }

  /** The inclusive end `cursor + limit - 1` of the requested window, in Go's int64 arithmetic. */
  function PullEnd(req: PullRequest): (end: Int64)
    ensures MinInt64 <= req.cursor + EffectiveLimit(req.limit) - 1 <= MaxInt64 ==>
      end == req.cursor + EffectiveLimit(req.limit) - 1
    ensures (end - (req.cursor + EffectiveLimit(req.limit) - 1)) % TwoTo64 == 0
  {
    Wrap64(req.cursor + EffectiveLimit(req.limit) - 1)
  }

  /** What the store returns for a pull under conversation key `key`. */
  ghost function PullWindow(chats: Chats, key: string, req: PullRequest): Result<seq<Message>> {
    Window(Conversation(chats, key), req.cursor, PullEnd(req), req.reverse)
  }

  /** Pulling with limit 0 fetches exactly what pulling with limit 10 fetches. */
  lemma ZeroLimitPullsTen(chats: Chats, key: string, req: PullRequest)
    requires req.limit == 0
    ensures PullWindow(chats, key, req) == PullWindow(chats, key, req.(limit := 10))
  {
  }

  /**
   * Unless `cursor + limit - 1` falls below the int64 range, a successful
   * fetch holds at least one and at most `limit` messages.
   */
  lemma WindowWithinLimit(conv: map<Int64, Message>, cursor: Int64, limit: Int32, reverse: bool)
    requires cursor + limit - 1 >= MinInt64
    ensures var w := Window(conv, cursor, Wrap64(cursor + limit - 1), reverse);
      w.Ok? ==> 1 <= |w.value| <= limit
  {
    var x := cursor + limit - 1;
    if x <= MaxInt64 {
      WrapInRange(x);
      WindowLength(conv, cursor, x, reverse);
    } else {
      WrapAbove(x);
      WindowFails(conv, cursor, Wrap64(x), reverse);
    }
  }

  /**
   * Fifteen stored messages read in pages of ten: the first page holds ten
   * messages, the second the remaining five, and a third fails.
   */
  lemma PagesOfFifteen(chats: Chats, key: string, chat: string, reverse: bool)
    requires |Conversation(chats, key)| == 15
    ensures var first := PullWindow(chats, key, PullRequest(chat, 0, 10, reverse));
      first.Ok? && |first.value| == 10
    ensures var second := PullWindow(chats, key, PullRequest(chat, 10, 10, reverse));
      second.Ok? && |second.value| == 5
    ensures PullWindow(chats, key, PullRequest(chat, 20, 10, reverse)).Err?
  {
    var conv := Conversation(chats, key);
    WrapInRange(9);
    WrapInRange(19);
    WrapInRange(29);
    WindowFails(conv, 0, 9, reverse);
    WindowLength(conv, 0, 9, reverse);
    WindowFails(conv, 10, 19, reverse);
    WindowLength(conv, 10, 19, reverse);
    WindowFails(conv, 20, 29, reverse);
  }

  /** A conversation nobody has written to cannot be pulled: the fetch fails whatever the cursor and limit. */
  lemma UnknownChatFails(chats: Chats, key: string, req: PullRequest)
    requires key !in chats
    ensures PullWindow(chats, key, req).Err?
  {
    WindowFails(Conversation(chats, key), req.cursor, PullEnd(req), req.reverse);
  }

  /**
   * With a limit of -1 and the lowest cursor, the window end wraps round to
   * the top of the int64 range and a non-empty conversation is fetched
   * whole; the handler then slices with a negative bound.
   */
  lemma PullWrapsOnLowestCursor(chats: Chats, key: string, chat: string, reverse: bool)
    requires 1 <= |Conversation(chats, key)| <= MaxInt64
    ensures var req := PullRequest(chat, MinInt64, -1, reverse);
      var w := PullWindow(chats, key, req);
      w.Ok? && |w.value| == |Conversation(chats, key)| && |w.value| > EffectiveLimit(req.limit)
  {
    var conv := Conversation(chats, key);
    var req := PullRequest(chat, MinInt64, -1, reverse);
    WrapBelow(MinInt64 - 2);
    assert PullEnd(req) == MaxInt64 - 1;
    WindowFails(conv, MinInt64, MaxInt64 - 1, reverse);
    WindowLength(conv, MinInt64, MaxInt64 - 1, reverse);
  }

  /**
   * `Pull`: rejects an empty chat, derives the key, defaults a zero limit to
   * 10, fetches `[cursor, cursor + limit - 1]` and copies the fetched
   * messages into the response with the caller's chat written verbatim.
   * The result never reports more data, and the next cursor is always
   * `cursor + limit`.
   */
  method Pull(store: MessageStore, req: PullRequest) returns (r: Result<PullResponse>)
    ensures r.Ok? <==>
      && req.chat != []
      && CheckGroupID(req.chat).Ok?
      && PullWindow(store.chats, CheckGroupID(req.chat).value, req).Ok?
      && EffectiveLimit(req.limit) > 0
    ensures r.Err? ==>
      r.error == (if req.chat == [] then MissingChatId
                  else if CheckGroupID(req.chat).Err? then InvalidGroupId
                  else if PullWindow(store.chats, CheckGroupID(req.chat).value, req).Err? then InvalidRange
                  else SliceOutOfRange)
    ensures r.Ok? ==>
      && !r.value.hasMore
      && r.value.code == 0
      && r.value.nextCursor == Wrap64(req.cursor + EffectiveLimit(req.limit))
    ensures r.Ok? ==>
      var fetched := PullWindow(store.chats, CheckGroupID(req.chat).value, req).value;
      && |r.value.messages| == |fetched|
      && forall i :: 0 <= i < |fetched| ==>
        r.value.messages[i] == RpcMessage(req.chat, fetched[i].text, fetched[i].sender, fetched[i].timestamp)
  {
    if req.chat == [] {
      return Err(MissingChatId);
    }
    var groupID := CheckGroupID(req.chat);
    if groupID.Err? {
      return Err(groupID.error);
    }
    r := PullConversation(store, groupID.value, req);
  }

  /**
   * The part of `Pull` after the key is known: defaults the limit, fetches
   * the window `[cursor, cursor + limit - 1]` under `key`, cuts it to
   * `limit` messages (which panics on a negative limit and otherwise never
   * cuts) and builds the response.
   */
  method PullConversation(store: MessageStore, key: string, req: PullRequest) returns (r: Result<PullResponse>)
    ensures r.Ok? <==> PullWindow(store.chats, key, req).Ok? && EffectiveLimit(req.limit) > 0
    ensures r.Err? ==>
      r.error == if PullWindow(store.chats, key, req).Err? then InvalidRange else SliceOutOfRange
    ensures r.Ok? ==>
      && !r.value.hasMore
      && r.value.code == 0
      && r.value.nextCursor == Wrap64(req.cursor + EffectiveLimit(req.limit))
    ensures r.Ok? ==>
      var fetched := PullWindow(store.chats, key, req).value;
      && 1 <= |fetched| <= EffectiveLimit(req.limit)
      && |r.value.messages| == |fetched|
      && forall i :: 0 <= i < |fetched| ==>
        r.value.messages[i] == RpcMessage(req.chat, fetched[i].text, fetched[i].sender, fetched[i].timestamp)
  {
    var limit: Int32 := req.limit;
    if limit == 0 {
      limit := 10;
    }
    var start := req.cursor;
    var end := Wrap64(start + limit - 1);
    assert end == PullEnd(req);

    var fetched := store.GetMessagesByGroupID(key, start, end, req.reverse);
    if fetched.Err? {
      WindowFails(Conversation(store.chats, key), start, end, req.reverse);
      return Err(fetched.error);
    }
    var messages := fetched.value;

    var hasMore := false;
    if limit > 0 {
      WindowWithinLimit(Conversation(store.chats, key), start, limit, req.reverse);
    }
    if |messages| > limit {
      // Go's messages[:limit] panics on a negative bound; a positive limit
      // never gets here, because the fetched window holds at most `limit`.
      if limit < 0 {
        return Err(SliceOutOfRange);
      }
      assert false;
    }

    var respMessages := ToRpcMessages(req.chat, messages);
    var nextCursor := Wrap64(start + limit);
    return Ok(PullResponse(respMessages, 0, hasMore, nextCursor));
  }

  /** The copying loop of `Pull`: each stored message becomes a response message under `chat`. */
  method ToRpcMessages(chat: string, messages: seq<Message>) returns (resp: seq<RpcMessage>)
    ensures |resp| == |messages|
    ensures forall k :: 0 <= k < |messages| ==>
      resp[k] == RpcMessage(chat, messages[k].text, messages[k].sender, messages[k].timestamp)
  {
    resp := [];
    var i := 0;
    while i < |messages|
      invariant 0 <= i <= |messages|
      invariant |resp| == i
      invariant forall k :: 0 <= k < i ==>
        resp[k] == RpcMessage(chat, messages[k].text, messages[k].sender, messages[k].timestamp)
    {
      var msg := messages[i];
      resp := resp + [RpcMessage(chat, msg.text, msg.sender, msg.timestamp)];
      i := i + 1;
    }
  }
}

=== FILE: redis.dfy ===
/**
 * The message store of rpc-server/redis.go, with the Redis server replaced by
 * an in-memory map: one hash per conversation key, one field per timestamp.
 */
module Redis {
  import opened Chat
  import opened TimestampOrder

  /** All stored hashes: conversation key to (timestamp to message). */
  type Chats = map<string, map<Int64, Message>>

  /** `HGetAll`: the hash stored under `key`, empty if it was never written. */
  function Conversation(chats: Chats, key: string): (conv: map<Int64, Message>)
    ensures conv == map[] <==> key !in chats || chats[key] == map[]
    ensures forall t :: t in conv ==> key in chats && t in chats[key] && conv[t] == chats[key][t]
    ensures key in chats ==> conv.Keys == chats[key].Keys
  {
    if key in chats then chats[key] else map[]
  }

  /** Read after write: a save shows in its own conversation and in no other. */
  lemma ConversationAfterPut(chats: Chats, key: string, m: Message, k: string)
    ensures Conversation(Put(chats, key, m), k) ==
      if k == key then Conversation(chats, key)[m.timestamp := m] else Conversation(chats, k)
  {
    if k != key && k in chats {
      assert Put(chats, key, m)[k] == chats[k];
    }
  }

  /** Every message is filed under its own timestamp. */
  ghost predicate WellKeyed(conv: map<Int64, Message>) {
    forall t :: t in conv ==> conv[t].timestamp == t
  }

  /**
   * `HSet key timestamp message`: the message overwrites whatever the hash
   * held under its timestamp; nothing else changes.
   */
  function Put(chats: Chats, key: string, m: Message): (r: Chats)
    ensures r.Keys == chats.Keys + {key}
    ensures r[key].Keys == Conversation(chats, key).Keys + {m.timestamp}
    ensures r[key][m.timestamp] == m
    ensures forall t :: t in Conversation(chats, key) && t != m.timestamp ==> r[key][t] == chats[key][t]
    ensures forall k :: k in chats && k != key ==> r[k] == chats[k]
  {
    chats[key := Conversation(chats, key)[m.timestamp := m]]
  }

  /**
   * What `GetMessagesByGroupID` returns: the conversation's timestamps listed
   * in the requested direction, the inclusive window `[start, end]` clamped to
   * that listing, an error when the clamped window is empty, and otherwise
   * the messages stored under the timestamps inside it.
   */
  ghost function Window(conv: map<Int64, Message>, start: Int64, end: Int64, reverse: bool): Result<seq<Message>>
  {
    var order := SortedKeys(conv.Keys, reverse);
    var lo := ClampLow(start);
    var hi := ClampHigh(end, |order|);
    if hi < lo then Err(InvalidRange)
    else Ok(Lookup(conv, order[lo..hi + 1]))
  }

  /** The messages filed under `ts`, in the order of `ts`. */
  function Lookup(conv: map<Int64, Message>, ts: seq<Int64>): (ms: seq<Message>)
    requires forall k :: 0 <= k < |ts| ==> ts[k] in conv
    ensures |ms| == |ts|
  {
    seq(|ts|, k requires 0 <= k < |ts| => conv[ts[k]])
  }

  /** The first index of the window: a negative start becomes 0. */
  function ClampLow(start: int): int {
    if start < 0 then 0 else start
  }

  /** The last index of the window: an end past the last of `n` timestamps becomes `n - 1`. */
  function ClampHigh(end: int, n: nat): int {
    if end >= n then n - 1 else end
  }

  /**
   * The hash's field names gathered into a fresh slice, in whatever order
   * the hash yields them.
   */
  method CollectTimestamps(rawMessages: map<Int64, Message>) returns (timestamps: array<Int64>)
    ensures fresh(timestamps)
    ensures multiset(timestamps[..]) == multiset(rawMessages.Keys)
  {
    var collected: seq<Int64> := [];
    var pending := rawMessages.Keys;
    while pending != {}
      invariant pending <= rawMessages.Keys
      invariant multiset(collected) + multiset(pending) == multiset(rawMessages.Keys)
      decreases |pending|
    {
      // `SomeElement` supplies the witness the choice below needs.
      ghost var some := SomeElement(pending);
      var t :| t in pending;
      MultisetRemove(pending, t);
      collected := collected + [t];
      pending := pending - {t};
    }
    timestamps := new Int64[|collected|](i requires 0 <= i < |collected| => collected[i]);
    assert timestamps[..] == collected;
  }

  /** The hash's timestamps gathered and then sorted in place in the requested direction. */
  method SortedTimestamps(rawMessages: map<Int64, Message>, reverse: bool) returns (timestamps: array<Int64>)
    ensures fresh(timestamps)
    ensures timestamps[..] == SortedKeys(rawMessages.Keys, reverse)
  {
    timestamps := CollectTimestamps(rawMessages);
    SortTimestamps(timestamps, reverse);
    OrderedIsSortedKeys(timestamps[..], rawMessages.Keys, reverse);
  }

  /** Reads the messages filed under `timestamps[lo..hi + 1]`, one index at a time. */
  method ReadRange(rawMessages: map<Int64, Message>, timestamps: array<Int64>, lo: nat, hi: int)
    returns (messages: seq<Message>)
    requires lo <= hi + 1 <= timestamps.Length
    requires forall k :: 0 <= k < timestamps.Length ==> timestamps[k] in rawMessages
    ensures messages == Lookup(rawMessages, timestamps[lo..hi + 1])
  {
    messages := [];
    var i := lo;
    while i <= hi
      invariant lo <= i <= hi + 1
      invariant |messages| == i - lo
      invariant forall k :: 0 <= k < i - lo ==> messages[k] == rawMessages[timestamps[lo + k]]
    {
      messages := messages + [rawMessages[timestamps[i]]];
      i := i + 1;
    }
  }

  class MessageStore {
    var chats: Chats

    /** Every conversation files each message under the message's own timestamp. */
    ghost predicate Valid()
      reads this
    {
      forall key :: key in chats ==> WellKeyed(chats[key])
    }

    /** A store with no conversations, as a freshly connected, empty Redis database. */
    constructor ()
      ensures chats == map[]
      ensures Valid()
    {
      chats := map[];
    }

    /** `SaveMessageToRedis`: one field write into the hash named `key`. */
    method SaveMessageToRedis(key: string, message: Message)
      modifies this
      ensures chats == Put(old(chats), key, message)
      ensures old(Valid()) ==> Valid()
    {
      var hash := Conversation(chats, key);
      chats := chats[key := hash[message.timestamp := message]];
    }

    /**
     * `GetMessagesByGroupID`: collects the hash's timestamps, sorts them,
     * clamps the window and reads the messages inside it.
     */
    method GetMessagesByGroupID(groupID: string, start: Int64, end: Int64, reverse: bool)
      returns (r: Result<seq<Message>>)
      ensures r == Window(Conversation(chats, groupID), start, end, reverse)
      ensures Valid() && r.Ok? ==> forall i, j :: 0 <= i < j < |r.value| ==>
        StrictlyBefore(r.value[i].timestamp, r.value[j].timestamp, reverse)
    {
      var rawMessages := Conversation(chats, groupID);

      var timestamps := SortedTimestamps(rawMessages, reverse);
      ghost var order := timestamps[..];

      var startIndex := start as int;
      var endIndex := end as int;
      if startIndex < 0 {
        startIndex := 0;
      }
      if endIndex >= timestamps.Length {
        endIndex := timestamps.Length - 1;
      }
      if endIndex < startIndex {
        r := Err(InvalidRange);
      } else {
        var messages := ReadRange(rawMessages, timestamps, startIndex, endIndex);
        assert timestamps[startIndex..endIndex + 1] == order[startIndex..endIndex + 1];
        r := Ok(messages);
      }
      assert r == Window(rawMessages, start, end, reverse);
      if Valid() {
        WindowOrdered(rawMessages, start, end, reverse);
      }
    }
  }

  /**
   * The fetch fails exactly when the clamped window is empty; with `n`
   * stored messages that is whenever `min(end, n - 1) < max(start, 0)`, so
   * always on an empty or unknown conversation and whenever `start >= n`.
   */
  lemma WindowFails(conv: map<Int64, Message>, start: Int64, end: Int64, reverse: bool)
    ensures Window(conv, start, end, reverse).Err? <==>
      (if end < |conv| then end else |conv| - 1) < (if start < 0 then 0 else start)
    ensures Window(conv, start, end, reverse).Err? ==> Window(conv, start, end, reverse).error == InvalidRange
    ensures |conv| == 0 || start >= |conv| || end < start || end < 0 ==> Window(conv, start, end, reverse).Err?
  {
  }

  /**
   * A successful fetch returns `min(end, n - 1) - max(start, 0) + 1` messages:
   * never more than the window `[start, end]` asks for, never more than are stored.
   */
  lemma WindowLength(conv: map<Int64, Message>, start: Int64, end: Int64, reverse: bool)
    ensures var w := Window(conv, start, end, reverse);
      w.Ok? ==>
        && |w.value| == (if end < |conv| then end else |conv| - 1) - (if start < 0 then 0 else start) + 1
        && 1 <= |w.value| <= end - start + 1
        && |w.value| <= |conv|
  {
  }

  /** The i-th fetched message is the one filed under the timestamp at sorted position `max(start, 0) + i`. */
  lemma WindowAt(conv: map<Int64, Message>, start: Int64, end: Int64, reverse: bool, i: nat)
    requires Window(conv, start, end, reverse).Ok?
    requires i < |Window(conv, start, end, reverse).value|
    ensures var order := SortedKeys(conv.Keys, reverse);
      var p := (if start < 0 then 0 else start) + i;
      p < |order| && Window(conv, start, end, reverse).value[i] == conv[order[p]]
  {
    var order := SortedKeys(conv.Keys, reverse);
    var lo, hi := ClampLow(start), ClampHigh(end, |order|);
    var ts := order[lo..hi + 1];
    assert ts[i] == order[lo + i];
  }

  /**
   * On a store that files each message under its own timestamp, a fetch
   * lists messages in strictly increasing timestamp order, or strictly
   * decreasing when reversed.
   */
  lemma WindowOrdered(conv: map<Int64, Message>, start: Int64, end: Int64, reverse: bool)
    requires WellKeyed(conv)
    ensures var w := Window(conv, start, end, reverse);
      w.Ok? ==> forall i, j :: 0 <= i < j < |w.value| ==>
        StrictlyBefore(w.value[i].timestamp, w.value[j].timestamp, reverse)
  {
    var w := Window(conv, start, end, reverse);
    if w.Ok? {
      SortedKeysStrict(conv.Keys, reverse);
      forall i, j | 0 <= i < j < |w.value|
        ensures StrictlyBefore(w.value[i].timestamp, w.value[j].timestamp, reverse)
      {
        WindowAt(conv, start, end, reverse, i);
        WindowAt(conv, start, end, reverse, j);
      }
    }
  }

  /**
   * A window `[start, end]` that covers sorted position `p` of the
   * conversation succeeds, and returns the message at `p` at offset
   * `p - max(start, 0)`.
   */
  lemma WindowCovers(conv: map<Int64, Message>, start: Int64, end: Int64, reverse: bool, p: nat)
    requires p < |conv| && start <= p <= end
    ensures var w := Window(conv, start, end, reverse);
      var lo := if start < 0 then 0 else start;
      && w.Ok?
      && p - lo < |w.value|
      && w.value[p - lo] == conv[SortedKeys(conv.Keys, reverse)[p]]
  {
    WindowFails(conv, start, end, reverse);
    WindowLength(conv, start, end, reverse);
    WindowAt(conv, start, end, reverse, p - ClampLow(start));
  }

  /** Over the whole conversation, the reversed fetch is the ascending fetch read backwards. */
  lemma WindowReversed(conv: map<Int64, Message>, i: nat)
    requires i < |conv| <= MaxInt64
    ensures var up := Window(conv, 0, MaxInt64, false);
      var down := Window(conv, 0, MaxInt64, true);
      && up.Ok? && down.Ok? && |up.value| == |down.value| == |conv|
      && down.value[i] == up.value[|conv| - 1 - i]
  {
    WindowCovers(conv, 0, MaxInt64, true, i);
    WindowCovers(conv, 0, MaxInt64, false, |conv| - 1 - i);
    WindowLength(conv, 0, MaxInt64, false);
    WindowLength(conv, 0, MaxInt64, true);
    assert SortedKeys(conv.Keys, true)[i] == SortedKeys(conv.Keys, false)[|conv| - 1 - i] by {
      DescendingIsReversedAscending(conv.Keys);
      ReverseAt(SortedKeys(conv.Keys, false), i);
    }
  }

  /** The timestamp of a message just saved has a place in the conversation's listing. */
  lemma SavedIsListed(chats: Chats, key: string, m: Message, reverse: bool)
    ensures m.timestamp in SortedKeys(Conversation(Put(chats, key, m), key).Keys, reverse)
  {
    var keys := Conversation(Put(chats, key, m), key).Keys;
    SortedKeysMultiset(keys, reverse);
    assert m.timestamp in multiset(keys);
  }

  /**
   * Round trip: after saving `m`, a fetch whose window covers the position
   * `p` of `m`'s timestamp succeeds and returns `m` at offset `p - max(start, 0)`.
   */
  lemma SaveThenFetch(chats: Chats, key: string, m: Message, start: Int64, end: Int64, reverse: bool, p: nat)
    requires var order := SortedKeys(Conversation(Put(chats, key, m), key).Keys, reverse);
      p < |order| && order[p] == m.timestamp
    requires start <= p <= end
    ensures var w := Window(Conversation(Put(chats, key, m), key), start, end, reverse);
      var lo := if start < 0 then 0 else start;
      w.Ok? && p - lo < |w.value| && w.value[p - lo] == m
  {
    var conv := Conversation(Put(chats, key, m), key);
    WindowCovers(conv, start, end, reverse, p);
  }

  /** Two saves under one timestamp leave only the second message (last write wins). */
  lemma SaveTwiceLastWins(chats: Chats, key: string, m1: Message, m2: Message)
    requires m1.timestamp == m2.timestamp
    ensures Put(Put(chats, key, m1), key, m2) == Put(chats, key, m2)
  {
    var t := m1.timestamp;
    assert Conversation(Put(chats, key, m1), key)[t := m2] == Conversation(chats, key)[t := m2];
  }

  /** A save keeps every message filed under its own timestamp. */
  lemma PutKeepsWellKeyed(chats: Chats, key: string, m: Message)
    requires forall k :: k in chats ==> WellKeyed(chats[k])
    ensures forall k :: k in Put(chats, key, m) ==> WellKeyed(Put(chats, key, m)[k])
  {
  }
}

=== FILE: timestamp_order.dfy ===
/**
 * The order in which the store lists a conversation's timestamps: ascending,
 * or descending when the pull asks for `reverse`. `SortedKeys` is the
 * reference definition; `SortTimestamps` is the in-place sort the fetch runs
 * (Go's `sort.Slice` with a `<` or `>` comparator), proved to agree with it.
 */
module TimestampOrder {
  import opened Chat

  /** `x` may come before `y` in the requested direction. */
  predicate Before(x: int, y: int, reverse: bool) {
    if reverse then x >= y else x <= y
  }

  /** `x` comes strictly before `y` in the requested direction. */
  predicate StrictlyBefore(x: int, y: int, reverse: bool) {
    if reverse then x > y else x < y
  }

  predicate Ordered(s: seq<Int64>, reverse: bool) {
    forall i, j :: 0 <= i < j < |s| ==> Before(s[i], s[j], reverse)
  }

  predicate StrictlyOrdered(s: seq<Int64>, reverse: bool) {
    forall i, j :: 0 <= i < j < |s| ==> StrictlyBefore(s[i], s[j], reverse)
  }

  /** `x` is a key and may come before every key. */
  predicate IsExtreme(x: Int64, keys: set<Int64>, reverse: bool) {
    x in keys && forall y :: y in keys ==> Before(x, y, reverse)
  }

  /** A non-empty set has an element. */
  lemma SomeElement<T>(s: set<T>) returns (x: T)
    requires s != {}
    ensures x in s
  {
    if forall y :: y !in s {
      assert false;
    }
    x :| x in s;
  }

  lemma {:induction false} ExtremeExists(keys: set<Int64>, reverse: bool)
    requires keys != {}
    ensures exists x: Int64 :: IsExtreme(x, keys, reverse)
    decreases |keys|
  {
    var z := SomeElement(keys);
    if keys == {z} {
      assert IsExtreme(z, keys, reverse);
    } else {
      ExtremeExists(keys - {z}, reverse);
      var w: Int64 :| IsExtreme(w, keys - {z}, reverse);
      if Before(z, w, reverse) {
        forall y | y in keys ensures Before(z, y, reverse) {
          if y != z {
            assert Before(w, y, reverse);
          }
        }
        assert IsExtreme(z, keys, reverse);
      } else {
        assert IsExtreme(w, keys, reverse);
      }
    }
  }

  /** Taking one element out of a set takes it out of the set's multiset. */
  lemma MultisetRemove(keys: set<Int64>, x: Int64)
    requires x in keys
    ensures multiset(keys) == multiset(keys - {x}) + multiset{x}
  {
    forall y ensures multiset(keys)[y] == (multiset(keys - {x}) + multiset{x})[y] {
    }
  }

  /** The first key in the requested direction: the least, or the greatest when reversed. */
  ghost function Extreme(keys: set<Int64>, reverse: bool): (x: Int64)
    requires keys != {}
    ensures x in keys
    ensures forall y :: y in keys ==> Before(x, y, reverse)
  {
    ExtremeExists(keys, reverse);
    var x: Int64 :| IsExtreme(x, keys, reverse);
    x
  }

  /** The keys listed one by one, each time taking the extreme of what is left. */
  ghost function SortedKeys(keys: set<Int64>, reverse: bool): (order: seq<Int64>)
    ensures |order| == |keys|
    ensures forall i :: 0 <= i < |order| ==> order[i] in keys
    decreases |keys|
  {
    if keys == {} then []
    else
      var x := Extreme(keys, reverse);
      [x] + SortedKeys(keys - {x}, reverse)
  }

  /** Every key appears in the listing exactly once. */
  lemma {:induction false} SortedKeysMultiset(keys: set<Int64>, reverse: bool)
    ensures multiset(SortedKeys(keys, reverse)) == multiset(keys)
    decreases |keys|
  {
    if keys != {} {
      var x := Extreme(keys, reverse);
      SortedKeysMultiset(keys - {x}, reverse);
      MultisetRemove(keys, x);
    }
  }

  /** The listing runs strictly in the requested direction: keys are distinct, so there are no ties. */
  lemma {:induction false} SortedKeysStrict(keys: set<Int64>, reverse: bool)
    ensures StrictlyOrdered(SortedKeys(keys, reverse), reverse)
    decreases |keys|
  {
    if keys != {} {
      var x := Extreme(keys, reverse);
      var rest := SortedKeys(keys - {x}, reverse);
      SortedKeysStrict(keys - {x}, reverse);
      var order := SortedKeys(keys, reverse);
      assert order == [x] + rest;
      forall i, j | 0 <= i < j < |order|
        ensures StrictlyBefore(order[i], order[j], reverse)
      {
        if i == 0 {
          assert order[j] == rest[j - 1] && rest[j - 1] in keys - {x};
        } else {
          assert order[i] == rest[i - 1] && order[j] == rest[j - 1];
        }
      }
    }
  }

  /**
   * A listing is determined by its elements and its direction: any ordered
   * sequence holding each key once is `SortedKeys(keys, reverse)`.
   */
  lemma {:induction false} OrderedIsSortedKeys(s: seq<Int64>, keys: set<Int64>, reverse: bool)
    requires Ordered(s, reverse)
    requires multiset(s) == multiset(keys)
    ensures s == SortedKeys(keys, reverse)
    decreases |keys|
  {
    if keys == {} {
      assert |multiset(s)| == 0;
    } else {
      var x := Extreme(keys, reverse);
      assert x in multiset(s);
      var j :| 0 <= j < |s| && s[j] == x;
      assert s[0] in multiset(keys);
      assert Before(s[0], s[j], reverse);
      assert s[0] == x;
      assert s == [x] + s[1..];
      assert multiset(s[1..]) == multiset(keys - {x}) by {
        assert multiset(s) == multiset{x} + multiset(s[1..]);
        MultisetRemove(keys, x);
        forall y ensures multiset(s[1..])[y] == multiset(keys - {x})[y] {
          assert multiset(s)[y] == multiset(keys)[y];
        }
      }
      var tail := s[1..];
      forall p, q | 0 <= p < q < |tail| ensures Before(tail[p], tail[q], reverse) {
        assert tail[p] == s[p + 1] && tail[q] == s[q + 1];
        assert Before(s[p + 1], s[q + 1], reverse);
      }
      OrderedIsSortedKeys(tail, keys - {x}, reverse);
    }
  }

  function Reverse(s: seq<Int64>): (r: seq<Int64>)
    ensures |r| == |s|
  {
    if s == [] then [] else Reverse(s[1..]) + [s[0]]
  }

  lemma {:induction false} ReverseAt(s: seq<Int64>, k: nat)
    requires k < |s|
    ensures Reverse(s)[k] == s[|s| - 1 - k]
  {
    if k < |s| - 1 {
      ReverseAt(s[1..], k);
    }
  }

  lemma {:induction false} ReverseMultiset(s: seq<Int64>)
    ensures multiset(Reverse(s)) == multiset(s)
  {
    if s != [] {
      ReverseMultiset(s[1..]);
      assert s == [s[0]] + s[1..];
    }
  }

  /** The descending listing is exactly the ascending one read backwards. */
  lemma DescendingIsReversedAscending(keys: set<Int64>)
    ensures SortedKeys(keys, true) == Reverse(SortedKeys(keys, false))
  {
    var asc := SortedKeys(keys, false);
    var desc := Reverse(asc);
    SortedKeysStrict(keys, false);
    forall i, j | 0 <= i < j < |desc|
      ensures Before(desc[i], desc[j], true)
    {
      ReverseAt(asc, i);
      ReverseAt(asc, j);
    }
    SortedKeysMultiset(keys, false);
    ReverseMultiset(asc);
    OrderedIsSortedKeys(desc, keys, true);
  }

  /**
   * Sorts `a` in place in the requested direction, as `sort.Slice` does
   * with the comparator `a[i] < a[j]` (or `a[i] > a[j]` when reversed).
   */
  method SortTimestamps(a: array<Int64>, reverse: bool)
    modifies a
    ensures Ordered(a[..], reverse)
    ensures multiset(a[..]) == multiset(old(a[..]))
  {
    var i := 0;
    while i < a.Length
      invariant 0 <= i <= a.Length
      invariant Ordered(a[..i], reverse)
      invariant multiset(a[..]) == multiset(old(a[..]))
    {
      InsertLast(a, i, reverse);
      i := i + 1;
    }
    assert a[..a.Length] == a[..];
  }

  /** Moves `a[i]` down into the ordered prefix `a[..i]`. */
  method InsertLast(a: array<Int64>, i: nat, reverse: bool)
    requires i < a.Length
    requires Ordered(a[..i], reverse)
    modifies a
    ensures Ordered(a[..i + 1], reverse)
    ensures multiset(a[..]) == multiset(old(a[..]))
  {
    var j := i;
    while j > 0 && !Before(a[j - 1], a[j], reverse)
      invariant 0 <= j <= i
      invariant multiset(a[..]) == multiset(old(a[..]))
      invariant forall p, q :: 0 <= p < q <= i && p != j && q != j ==> Before(a[p], a[q], reverse)
      invariant forall q :: j < q <= i ==> Before(a[j], a[q], reverse)
    {
      Swap(a, j - 1, j);
      j := j - 1;
    }
  }

  method Swap(a: array<Int64>, i: nat, j: nat)
    requires i < j < a.Length
    modifies a
    ensures a[..] == old(a[..])[i := old(a[j])][j := old(a[i])]
    ensures multiset(a[..]) == multiset(old(a[..]))
  {
    a[i], a[j] := a[j], a[i];
  }
}
